=== FILE: README.md ===
# dAMM simulator: constant-product pools and the sync aggregator

This project models the engine of the dAMM simulator (`simulator.ts`) in
Dafny and proves properties of it. The engine has two parts.

- **The pool (`AMM`).** It keeps actual balances `x`, `y` and virtual
  balances `vx`, `vy`, and prices against the virtual ones.
  - `join` checks the deposit ratio, mints the geometric mean of the two
    amounts, and adds the deposit to both balance pairs.
  - `exit` withdraws at the current virtual price an amount pair whose
    product is the burned amount squared.
  - `buyX` and `buyY` are constant-product swaps. Their fee term is switched
    off.
- **The aggregator (`DAMM`).** It keeps one shadow record per registered pool
  (`AmmState`), global balances and supply, and an append-only ledger of sync
  points that starts with the genesis entry `(0, 0)`. `syncAMM` does the
  following:
  - checks the pool and the ledger indices;
  - works out the pool's new root of `k` from what the ledger grew by;
  - rescales the pool's virtual balances to that depth at the same price;
  - folds the pool's balance change into the global balances;
  - appends one ledger entry and moves both supplies by the pool's change in
    root;
  - advances the pool's floor index;
  - adds the extra amounts;
  - checks the health factor.

Numbers are exact `real`s. Every operation is a pure function that returns
either a failure (one constructor per assertion the source can trip) or the
new state. The source changes its objects in place and may throw halfway
through. Here a failed operation simply returns no new state.

`Math.sqrt` is the parameter `sqrt: real -> real`. Each operation that takes a
root requires `IsSqrt(sqrt)`, which says `sqrt` is the non-negative square
root on the non-negative reals. `RealMath.SqrtUnique` shows that any two such
functions agree, so no result depends on which one is passed.

Files and modules:

- `wrappers.dfy` (`Wrappers`): `Option` and `Result`.
- `realmath.dfy` (`RealMath`): `Abs`, the square-root predicate, and small
  facts about products and roots.
- `amm.dfy` (`AmmPool`): the pool, its operations, and the lemmas about them.
- `aggregator.dfy` (`Aggregator`): the aggregator, `syncAMM` in stages (index
  checks, rescale, settle, commit, health check), and the health factor.
- `invariants.dfy` (`Invariants`): the bookkeeping invariant `Valid` and the
  lemmas showing that every operation keeps it.
- `runs.dfy` (`Runs`): sequences of registrations and syncs, and the opening
  of the demo script as a concrete scenario.

The pool's queries `k`, `kb`, `price` and `ratio` (simulator.ts:131-145) are
the plain definitions `AmmPool.K`, `Kb`, `Price` and `BalanceRatio`; the
aggregator's `k` (simulator.ts:327-329) is the product `X*Y` inside
`Aggregator.HealthFactor`. The new root a sync assigns a pool
(simulator.ts:253) is `Aggregator.NewSqrtK`. These carry no contract of their
own; what they mean is stated by the members that use them (`BuyY` and
`BuyX` keep `K`, `Advance` and `SyncAt` rescale the pool to `NewSqrtK`, and
`JoinKeepsPrice`, `ExitKeepsPrice` and `RescaleKeepsPrice` keep `Price`).

The model follows the code in three places:

- **Duplicate names.** Registering a name twice is accepted, and lookup
  returns the first match. There is no duplicate-name error.
- **`buyX` pricing.** `buyX` always uses the no-fee formula.
- **Drop guard.** The bound on how far the health factor may fall in one sync
  is the minimum health factor itself (0.9).

## Model

| member | source | states |
|---|---|---|
| AmmPool.NewAmm | simulator.ts:34-48 | A new pool keeps its name and has all four balances zero. |
| AmmPool.GetAmountOutNoFee | simulator.ts:16-18 | The input side grown by `amountIn` times the output side shrunk by the result equals the old product of the reserves. For a positive input reserve and non-negative input, the result lies between 0 and the output reserve, strictly below it when that reserve is positive. |
| AmmPool.GetAmountOut | simulator.ts:7-13 | The fee argument has no effect: the result is the no-fee amount for every fee. |
| AmmPool.BuyY | simulator.ts:106-114 | Fails with DivisionByZero exactly when `vx + amountIn` is 0. Fails with OutOfBounds exactly when the new `x` or `y` would be negative. On success: `amountIn` goes into `x` and `vx`, the output comes out of `y` and `vy`, `vx*vy` is unchanged, and both actual balances are non-negative. For a non-negative input against positive `vx` and non-negative `vy`, the output lies between 0 and `vy`. |
| AmmPool.BuyX | simulator.ts:116-125 | The mirror image of BuyY with the roles of x and y exchanged, priced with the no-fee formula. The same failure characterisations hold. `vx*vy` is unchanged. For a non-negative input against positive `vy` and non-negative `vx`, the output lies between 0 and `vx`. |
| AmmPool.Join | simulator.ts:60-77 | Fails with RatioInvalid exactly when the pool has depth (`vx, vy > 0`) and either `amountY` is 0 or the deposit ratio is 0.01 or more away from `vx/vy`. Otherwise the minted amount is the non-negative root of `amountX*amountY`, and the deposit is added to both balance pairs. |
| AmmPool.Exit | simulator.ts:79-104 | Fails with NotFinite exactly when `vx*vy` is 0, or negative with a non-zero burn. A zero burn from a pool whose virtual balances have opposite signs withdraws nothing and leaves the pool unchanged. For positive `vx*vy` the two amounts are non-negative, multiply to `burnAmount` squared, and stand in the pool's ratio (`amountY*vx == amountX*vy`). They are taken out of both balance pairs. |
| AmmPool.ScaledRoots | simulator.ts:83-92 | The two roots of `b*b*(vx/vy)` and `b*b*(vy/vx)` are non-negative, multiply to `b*b`, and stand in the ratio `vy/vx`. This is the derivation in the source's comments, shared by exit and by the aggregator's rescale. |
| AmmPool.ExitCharacterized | simulator.ts:83-92 | For a pool with positive `vx*vy`, any non-negative pair with product `burn*burn` in the pool's ratio is exactly the pair that exit returns. The exit amounts are therefore the unique solution of the equations in the source's comments. |
| AmmPool.JoinExitRoundTrip | simulator.ts:60-104 | A join at exactly the pool's price, or the first join into an empty pool, followed by an exit of the amount it minted, gives back the same two amounts and the original pool. |
| AmmPool.JoinGrowsRoot | simulator.ts:64-76 | A join at the pool's price, or the first join into an empty pool, grows `sqrt(vx*vy)` by exactly the amount minted. |
| AmmPool.ExitShrinksRoot | simulator.ts:83-101 | An exit of at most `sqrt(vx*vy)` shrinks `sqrt(vx*vy)` by exactly the amount burned. |
| AmmPool.JoinKeepsPrice | simulator.ts:64-74 | A join whose amounts stand in the pool's ratio into a pool with positive virtual balances succeeds and leaves `Price` (`vy/vx`) unchanged. |
| AmmPool.ExitKeepsPrice | simulator.ts:83-101 | An exit from a pool with positive virtual balances succeeds and, unless it empties `vx`, leaves `Price` unchanged. |
| AmmPool.Transfer | simulator.ts:148-151 | The sum of the two pools' actual balances is conserved. The receiver gains exactly the amounts moved. Virtual balances and names are untouched. |
| AmmPool.TransferAllBack | simulator.ts:153-155 | The sender is left with zero actual balances, and the receiver holds both pools' former balances. |
| Aggregator.NewDamm | simulator.ts:207-217 | A new aggregator has zero balances and supply, no pools, and the single genesis ledger entry `(0, 0)`. |
| Aggregator.AddAmm | simulator.ts:219-231 | The registry is the old one with one record appended. That record holds the pool's name and current balances, with zero root, supply and indices. Nothing else changes. |
| Aggregator.FindAmm | simulator.ts:314-321 | Returns the position of the first record with the name: it is in range, it matches, and no earlier record matches. Returns None exactly when no record has the name. |
| Aggregator.HealthFactor | simulator.ts:327-333 | Defined exactly when the supply is positive and `X*Y >= 0`. Then it is non-negative, its product with the supply is `sqrt(X*Y)`, and it is at least 0.9 exactly when `X*Y >= 0.81*S*S`. |
| Aggregator.Rescale | simulator.ts:267-272 | For positive `vx*vy`, the new virtual balances are non-negative and multiply to the new root squared. They keep the old ratio (`vy'*vx == vx'*vy`). The name and actual balances are kept. |
| Aggregator.RescaleKeepsPrice | simulator.ts:267-272 | Rescaling a pool with positive virtual balances to a non-zero root gives a positive `vx` and leaves `Price` unchanged. |
| Aggregator.Commit | simulator.ts:274-304 | The committed state: supply plus `dSqrtK`, where `dSqrtK` is the current root minus the record's root. Exactly one ledger entry is appended, with timestamp equal to its position and root equal to the last root plus `dSqrtK`, and earlier entries are unchanged. The synced record gets the new root, the pool's balances, its supply plus `dSqrtK`, its new indices and `dSqrtK`. Other records are unchanged. Global balances move by the pool's delta plus the extras. |
| Aggregator.CheckHealth | simulator.ts:306-311 | Fails with HealthFactorTooLow exactly when the factor after is undefined or below 0.9. Fails with HealthFactorDropTooLarge exactly when the factor after is at least 0.9 but fell from a defined factor before by 0.9 or more. Passes otherwise. |
| Aggregator.Settle | simulator.ts:286-311 | Fails with NegativeGlobalSupply or NegativePoolSupply exactly when the respective supply would go negative. It succeeds exactly when the supply checks and the health check pass. When both supplies stay non-negative, a failure is exactly the error the health check reports on the committed state. On success the commit holds, both supplies are non-negative, and the health factor is at least 0.9. |
| Aggregator.Advance | simulator.ts:251-311 | For positive `vx*vy` the curve check after rescaling always passes. The sync succeeds exactly when settling does, and the returned pool is rescaled to the new root the record stores. It fails with NegativeGlobalSupply exactly when the global supply would go negative, and with NegativePoolSupply exactly when only the pool's supply would. When both stay non-negative, a failure is exactly the error the health check reports on the committed state. |
| Aggregator.Sync | simulator.ts:233-236 | Fails with NotFound exactly when no record has the pool's name. Otherwise it is the sync of the first matching record. |
| Aggregator.SyncAt | simulator.ts:233-312 | Each failure is characterised exactly, in the source's order: an index off the ledger, an index below the floor, a previous index off the ledger, then a non-positive `vx*vy`. Once those checks pass with current root `sqrt(vx*vy)`, it fails with NegativeGlobalSupply or NegativePoolSupply exactly when the respective supply would go negative, and otherwise any failure is exactly the health check's error on the committed state. Success holds exactly when these checks and the settle checks pass. On success: the commit with the pool's current root `sqrt(vx*vy)`, non-negative supplies, a health factor of at least 0.9, and the pool rescaled to the recorded new root at its old price. |
| Invariants.NewDammValid | simulator.ts:207-217 | A new aggregator satisfies the bookkeeping invariant. |
| Invariants.AddAmmValid | simulator.ts:219-231 | Registering a pool keeps the invariant. |
| Invariants.CommitValid | simulator.ts:279-300 | A commit that leaves both supplies non-negative keeps the invariant. The global supply, the last ledger root and the sum of the per-pool supplies all move by `dSqrtK`. Ledger timestamps stay equal to positions. Every record's indices stay on the ledger. |
| Invariants.SyncValid | simulator.ts:233-312 | A successful sync keeps the invariant. In particular, the global supply equals the last ledger root and the sum of the per-pool supplies. |
| Invariants.StaleIndexRefused | simulator.ts:244-296 | After a successful sync of a pool, the next sync of that name at an index that was already on the ledger fails with InvalidSyncPoint. |
| Invariants.SyncFloorsRise | simulator.ts:293-296 | No record's floor index decreases on a sync. The synced record's floor becomes the position of the entry just appended. |
| Invariants.AddAmmFind | simulator.ts:219-231 | After registration, a name that was already registered still finds its first record. A new name finds the appended record. Any other name is still missing. |
| Runs.ApplyFloor | simulator.ts:219-296 | A registration or successful sync keeps a registered name finding the same record, does not lower that record's floor index, and does not shrink the ledger. |
| Runs.RunFloor | simulator.ts:219-296 | The same over any successful sequence of registrations and syncs. |
| Runs.StaleIndexRefusedAfterRun | simulator.ts:244-296 | After a successful sync of a pool and any successful sequence of registrations and syncs of any pools, a sync of that name at an index that was on the ledger before the first sync fails with InvalidSyncPoint. |
| Runs.ApplyKeeps | simulator.ts:219-312 | One registration or successful sync keeps the invariant, and the old ledger is a prefix of the new one. |
| Runs.RunKeeps | simulator.ts:219-312 | Any successful sequence of registrations and syncs keeps the invariant, and the ledger only grows. |
| Runs.FreshRunValid | simulator.ts:207-312 | Every successful sequence of operations from a new aggregator ends in a state satisfying the invariant. |
| Runs.FirstJoinScenario | simulator.ts:349-352 | A new pool's first join of 100 and 100 mints exactly 100 and sets both balance pairs to 100. |
| Runs.FirstSyncScenario | simulator.ts:347-356 | After that join, the first sync at index 0 succeeds. The ledger becomes `[(0, 0), (1, 100)]`, the global supply is 100, the pool's curve is unchanged, and the health factor is exactly 1. |

## Left out

- Console output, both `toString` methods, and the rest of the demo script (simulator.ts:338-395) are left out. They are a driver, not logic. The opening of the demo is kept as a scenario.
- The impermanent-loss formulas (simulator.ts:157-168) are left out. They are unused closed-form expressions.
- `setVirtualBalances` (simulator.ts:50-53) is never called; the sync writes `vx` and `vy` directly, which Rescale models. `addBalances` is not a separate member; it is the record update inside Transfer.
- The unused pool fields `F`, `fee`, `POOL_TOKEN_BASE` and `totalSupply`, and the constant `MAX_HEALTH_FACTOR_DETORIATION_PER_AMM_PER_DAY`, are not modelled.
- Floating point is not modelled: no rounding, NaN or Infinity. Where the source would compute NaN or Infinity, the model returns a named failure:
  - a swap whose denominator is 0 fails with DivisionByZero;
  - an exit from a pool with `vx*vy == 0`, or with `vx*vy < 0` and a non-zero burn, fails with NotFinite;
  - a sync of a pool with `vx*vy <= 0` fails with InvalidCurve, which is where the source's curve assertion trips.

  In exact arithmetic the 1.0 curve tolerance is never reached otherwise.
- The source's timestamp assertion at simulator.ts:243 always holds. An index off the ledger, which makes the source throw on `undefined`, is modelled as SyncPointOutOfRange.
- The order of mutation before a throw is not modelled. A failed operation returns no new state.
- Aggregator.HealthFactor is defined only for a positive supply. JavaScript gives Infinity when the supply is 0 and `X*Y > 0`. So the model refuses, with HealthFactorTooLow, a sync that leaves zero global supply and a positive `X*Y`, while the source accepts that sync: Infinity passes the floor check at simulator.ts:308, and `Infinity < before` at simulator.ts:309 is false. Only a later sync, whose factor before is then Infinity, trips the source's drop check.
- Aggregator.CheckHealth skips the drop comparison when the factor before is undefined. This includes the first sync, where the source's comparison is against NaN and is likewise skipped.
- AmmPool.Transfer assumes the two pools are distinct objects. In the source, `transfer(a, a, ...)` changes the one object twice and leaves it as it was; the model returns two independent records.
- AmmPool.TransferAllBack assumes the same. For `transferAllBack(a, a)` the source leaves `a` unchanged, while the model's sender ends at zero.
- AmmPool.Join requires `amountX*amountY >= 0`. With a negative product the source mints NaN.
- AmmPool.Exit states the withdrawal ratio cross-multiplied (`amountY*vx == amountX*vy`), not as the quotient `amountY/amountX == vy/vx`. The quotient form would need `amountX != 0`, which fails for a zero burn.
- AmmPool.ExitShrinksRoot assumes the burn is at most `sqrt(vx*vy)`. The source does not check this. A larger burn leaves negative virtual balances.
- `Math.sqrt` is a parameter, not a definition. The IsSqrt requirement is the only property the model uses.

=== FILE: aggregator.dfy ===
/**
 The dAMM aggregator. It keeps one shadow record per registered pool, global
 actual balances and a global supply, and an append-only ledger of sync
 points. Syncing a pool folds what changed in the pool since its last sync
 into the global state, appends one ledger entry and rescales the pool's
 virtual balances to the depth the ledger says it should have.
 */
module Aggregator {
  import opened Wrappers
  import opened RealMath
  import opened AmmPool

  /** One ledger entry: its position and the global root of `k` after it. */
  datatype SyncPoint = SyncPoint(timestamp: nat, sqrtK: real)

  /** The aggregator's shadow record of one pool, as of that pool's last sync. */
  datatype AmmState = AmmState(
    name: string,
    sqrtK: real,
    x: real,
    y: real,
    totalSupply: real,
    previousSyncPointIdx: nat,
    nextMinSyncPointIdx: nat,
    previousDeltaK: real)

  datatype Damm = Damm(
    name: string,
    x: real,
    y: real,
    totalSupply: real,
    amms: seq<AmmState>,
    syncPoints: seq<SyncPoint>)

  /** What a successful sync hands back: the aggregator and the rescaled pool. */
  datatype Synced = Synced(damm: Damm, amm: Amm)

  /** The assertions a sync can trip, in the order it checks them. */
  datatype SyncError =
    | NotFound                  // no registered pool has this name
    | SyncPointOutOfRange       // the ledger has no entry at the index asked for
    | InvalidSyncPoint          // the index is below the pool's floor
    | InvalidCurve              // the rescaled curve misses the new depth
    | NegativeGlobalSupply
    | NegativePoolSupply
    | HealthFactorTooLow        // the health factor after the sync is below the minimum
    | HealthFactorDropTooLarge  // the health factor fell by the minimum or more

  const MinHealthFactor: real := 0.9

  /** How far the rescaled `vx*vy` may be from the new depth squared. */
  const CurveTolerance: real := 1.0

  /** A new aggregator: no pools, zero balances and supply, and the genesis ledger entry. */
  function NewDamm(name: string): (d: Damm)
    ensures d.syncPoints == [SyncPoint(0, 0.0)] && d.amms == []
    ensures d.x == 0.0 && d.y == 0.0 && d.totalSupply == 0.0
  {
    Damm(name, 0.0, 0.0, 0.0, [], [SyncPoint(0, 0.0)])
  }

  /** The record a newly registered pool starts with: its current balances and nothing else. */
  function InitialState(amm: Amm): AmmState {
    AmmState(amm.name, 0.0, amm.x, amm.y, 0.0, 0, 0, 0.0)
  }

  /**
   Register a pool. Its record is appended after the existing ones and starts
   from the pool's current actual balances; nothing else changes. Names are not
   checked for duplicates.
   */
  function AddAmm(d: Damm, amm: Amm): (e: Damm)
    ensures e.amms == d.amms + [InitialState(amm)]
    ensures e == d.(amms := e.amms)
  {
    d.(amms := d.amms + [AmmState(amm.name, 0.0, amm.x, amm.y, 0.0, 0, 0, 0.0)])
  }

  /**
   The position of the first record named `name`, if there is one.
   */
  function FindAmm(amms: seq<AmmState>, name: string): (r: Option<nat>)
    ensures r.Some? ==> r.value < |amms| && amms[r.value].name == name
    ensures r.Some? ==> forall j :: 0 <= j < r.value ==> amms[j].name != name
    ensures r.None? <==> forall j :: 0 <= j < |amms| ==> amms[j].name != name
  {
    if |amms| == 0 then None
    else if amms[0].name == name then Some(0)
    else
      match FindAmm(amms[1..], name)
      case None => None
      case Some(k) => Some(k + 1)
  }

  /**
   Health factor: the root of the product of the global balances per unit of
   global supply. It is only defined for a positive supply and a non-negative
   product.
   */
  function HealthFactor(d: Damm, sqrt: real -> real): (h: Option<real>)
    requires IsSqrt(sqrt)
    ensures h.Some? <==> 0.0 < d.totalSupply && 0.0 <= d.x * d.y
    ensures h.Some? ==> 0.0 <= h.value && h.value * d.totalSupply == sqrt(d.x * d.y)
    ensures h.Some? ==>
              (h.value >= MinHealthFactor <==> d.x * d.y >= 0.81 * (d.totalSupply * d.totalSupply))
  {
    if 0.0 < d.totalSupply && 0.0 <= d.x * d.y then
      var xy := d.x * d.y;
      var root := sqrt(xy);
      var s := d.totalSupply;
      assert (root / s) * s == root;
      HealthFloor(sqrt, root / s, s, xy, root);
      Some(root / s)
    else None
  }

  /**
   The health floor in squared form: a factor `h` with `h * s` the root of
   `xy`, for a positive `s`, is at least the minimum exactly when `xy` is at
   least `0.81` times `s` squared.
   */
  lemma HealthFloor(sqrt: real -> real, h: real, s: real, xy: real, root: real)
    requires IsSqrt(sqrt)
    requires 0.0 < s && 0.0 <= xy && root == sqrt(xy) && h * s == root
    ensures h >= MinHealthFactor <==> xy >= 0.81 * (s * s)
  {
    var c := MinHealthFactor * s;
    ScaleByPositive(h, MinHealthFactor, s);
    SqrtAtLeast(sqrt, xy, c);
    assert c * c == 0.81 * (s * s);
  }

  /** Comparing after scaling both sides by a positive factor. */
  lemma ScaleByPositive(a: real, b: real, s: real)
    requires 0.0 < s
    ensures a >= b <==> a * s >= b * s
  {
    if a >= b {
      assert (a - b) * s >= 0.0;
    } else {
      assert (b - a) * s > 0.0;
    }
  }

  /**
   `q` is `amm` with its virtual balances moved to depth `sqrtK` at the same
   price: they are non-negative, multiply to `sqrtK` squared and stand in the
   old ratio; the name and the actual balances are kept.
   */
  ghost predicate RescaledTo(amm: Amm, q: Amm, sqrtK: real) {
    && q == amm.(vx := q.vx, vy := q.vy)
    && 0.0 <= q.vx && 0.0 <= q.vy
    && q.vx * q.vy == sqrtK * sqrtK
    && q.vy * amm.vx == q.vx * amm.vy
  }

  /**
   Move the pool's virtual balances to depth `newSqrtK` without moving its
   price: the new balances multiply to `newSqrtK` squared and stand in the
   old ratio. The actual balances and the name are kept.
   */
  function Rescale(amm: Amm, newSqrtK: real, sqrt: real -> real): (q: Amm)
    requires IsSqrt(sqrt)
    requires 0.0 < amm.vx * amm.vy
    ensures RescaledTo(amm, q, newSqrtK)
  {
    var vx, vy := amm.vx, amm.vy;
    PositiveProduct(vx, vy);
    var qx := newSqrtK * newSqrtK * (vx / vy);
    var qy := newSqrtK * newSqrtK * (vy / vx);
    var nvx := sqrt(qx);
    var nvy := sqrt(qy);
    ScaledRoots(sqrt, newSqrtK, vx, vy, qx, qy, nvx, nvy);
    amm.(vx := nvx, vy := nvy)
  }

  /**
   For a pool with depth rescaled to a non-zero root, the price `vy/vx` is the
   one it had before.
   */
  lemma RescaleKeepsPrice(amm: Amm, q: Amm, sqrtK: real)
    requires 0.0 < amm.vx && 0.0 < amm.vy && sqrtK != 0.0
    requires RescaledTo(amm, q, sqrtK)
    ensures 0.0 < q.vx && Price(q) == Price(amm)
  {
    assert q.vx != 0.0 && q.vy != 0.0 by {
      if q.vx == 0.0 || q.vy == 0.0 {
        assert sqrtK * sqrtK == 0.0;
        ProductZero(sqrtK, sqrtK);
        assert false;
      }
    }
    DivideCross(q.vy, q.vx, amm.vy, amm.vx);
  }

  /**
   The root of `k` the ledger assigns a pool that syncs at ledger index
   `target` with current root `currentSqrtK`: what the ledger grew by between
   the pool's previous index and `target`, minus what the pool itself added at
   its previous sync, on top of its current root.
   */
  function NewSqrtK(currentSqrtK: real, st: AmmState, points: seq<SyncPoint>, target: nat): real
    requires target < |points| && st.previousSyncPointIdx < |points|
  {
    currentSqrtK + (points[target].sqrtK - points[st.previousSyncPointIdx].sqrtK) - st.previousDeltaK
  }

  /**
   `e` is `d` after committing a sync of record `i` at ledger index `target`
   for a pool whose root of `k` is now `currentSqrtK`. Write `dSqrtK` for
   `currentSqrtK` minus the root the record holds, that is, what joins and
   exits added to the pool since its last sync. Then: the global supply moved
   by `dSqrtK`; exactly one ledger entry was appended, at position `n` with
   timestamp `n`, carrying the last root plus `dSqrtK`, and every earlier entry
   is unchanged; the record holds the new root, the pool's actual balances,
   its supply plus `dSqrtK`, `target` as its previous index and `n` as its
   floor; every other record is unchanged; and the global balances moved by
   the pool's balance delta since its last sync plus the extra amounts.
   */
  ghost predicate CommittedSync(d: Damm, i: nat, amm: Amm, target: nat, currentSqrtK: real,
                                extraX: real, extraY: real, e: Damm)
    requires i < |d.amms| && target < |d.syncPoints| && d.amms[i].previousSyncPointIdx < |d.syncPoints|
  {
    var st := d.amms[i];
    var n := |d.syncPoints|;
    var dSqrtK := currentSqrtK - st.sqrtK;
    && e.name == d.name
    && e.totalSupply == d.totalSupply + dSqrtK
    && |e.syncPoints| == n + 1
    && e.syncPoints[..n] == d.syncPoints
    && e.syncPoints[n] == SyncPoint(n, d.syncPoints[n - 1].sqrtK + dSqrtK)
    && |e.amms| == |d.amms|
    && (forall j :: 0 <= j < |d.amms| && j != i ==> e.amms[j] == d.amms[j])
    && e.amms[i] == AmmState(st.name, NewSqrtK(currentSqrtK, st, d.syncPoints, target), amm.x, amm.y,
                             st.totalSupply + dSqrtK, target, n, dSqrtK)
    && e.x == d.x + (amm.x - st.x) + extraX
    && e.y == d.y + (amm.y - st.y) + extraY
  }

  /** The aggregator after a sync, before the health check. */
  function Commit(d: Damm, i: nat, amm: Amm, target: nat, currentSqrtK: real,
                  extraX: real, extraY: real): (e: Damm)
    requires i < |d.amms| && target < |d.syncPoints| && d.amms[i].previousSyncPointIdx < |d.syncPoints|
    ensures CommittedSync(d, i, amm, target, currentSqrtK, extraX, extraY, e)
  {
    var st := d.amms[i];
    var n := |d.syncPoints|;
    var dSqrtK := currentSqrtK - st.sqrtK;
    var record := AmmState(st.name, NewSqrtK(currentSqrtK, st, d.syncPoints, target), amm.x, amm.y,
                           st.totalSupply + dSqrtK, target, n, dSqrtK);
    Damm(d.name,
         d.x + (amm.x - st.x) + extraX,
         d.y + (amm.y - st.y) + extraY,
         d.totalSupply + dSqrtK,
         d.amms[i := record],
         d.syncPoints + [SyncPoint(n, d.syncPoints[n - 1].sqrtK + dSqrtK)])
  }

  /**
   The health check closing a sync: the factor after must be defined and at
   least the minimum, and when it fell, it must have fallen by less than the
   minimum. A factor that was undefined before is not compared.
   */
  function CheckHealth(before: Option<real>, after: Option<real>): (r: Option<SyncError>)
    ensures r == None <==>
              && after.Some? && after.value >= MinHealthFactor
              && (before.Some? && after.value < before.value ==> before.value - after.value < MinHealthFactor)
    ensures r == Some(HealthFactorTooLow) <==> after.None? || after.value < MinHealthFactor
    ensures r == Some(HealthFactorDropTooLarge) <==>
              && after.Some? && after.value >= MinHealthFactor
              && before.Some? && after.value < before.value && before.value - after.value >= MinHealthFactor
  {
    if after.None? || after.value < MinHealthFactor then Some(HealthFactorTooLow)
    else if before.Some? && after.value < before.value && !(before.value - after.value < MinHealthFactor)
    then Some(HealthFactorDropTooLarge)
    else None
  }

  /**
   The checks that close a sync at ledger index `target` for a pool whose
   root of `k` is now `currentSqrtK`: neither the global nor the pool's supply
   goes negative, and the health check passes on the committed state.
   */
  ghost predicate SettleAccepts(d: Damm, i: nat, amm: Amm, target: nat, currentSqrtK: real,
                                extraX: real, extraY: real, sqrt: real -> real)
    requires IsSqrt(sqrt)
    requires i < |d.amms| && target < |d.syncPoints| && d.amms[i].previousSyncPointIdx < |d.syncPoints|
  {
    var dSqrtK := currentSqrtK - d.amms[i].sqrtK;
    && 0.0 <= d.totalSupply + dSqrtK
    && 0.0 <= d.amms[i].totalSupply + dSqrtK
    && CheckHealth(HealthFactor(d, sqrt),
                   HealthFactor(Commit(d, i, amm, target, currentSqrtK, extraX, extraY), sqrt)) == None
  }

  /**
   The last stage of a sync, once the pool's current root and the rescaled
   pool are known: refuse a negative global or pool supply, commit, and run
   the health check against the factor before the sync.
   */
  function Settle(d: Damm, i: nat, amm: Amm, target: nat, currentSqrtK: real,
                  extraX: real, extraY: real, rescaled: Amm, sqrt: real -> real): (r: Result<Synced, SyncError>)
    requires IsSqrt(sqrt)
    requires i < |d.amms| && target < |d.syncPoints| && d.amms[i].previousSyncPointIdx < |d.syncPoints|
    ensures var dSqrtK := currentSqrtK - d.amms[i].sqrtK;
            && (r == Failure(NegativeGlobalSupply) <==> d.totalSupply + dSqrtK < 0.0)
            && (r == Failure(NegativePoolSupply) <==>
                  0.0 <= d.totalSupply + dSqrtK && d.amms[i].totalSupply + dSqrtK < 0.0)
    ensures r.Failure? ==> r.error in {NegativeGlobalSupply, NegativePoolSupply, HealthFactorTooLow, HealthFactorDropTooLarge}
    ensures r.Success? <==> SettleAccepts(d, i, amm, target, currentSqrtK, extraX, extraY, sqrt)
    ensures var dSqrtK := currentSqrtK - d.amms[i].sqrtK;
            r.Failure? && 0.0 <= d.totalSupply + dSqrtK && 0.0 <= d.amms[i].totalSupply + dSqrtK ==>
              Some(r.error) == CheckHealth(HealthFactor(d, sqrt),
                                           HealthFactor(Commit(d, i, amm, target, currentSqrtK, extraX, extraY), sqrt))
    ensures r.Success? ==>
              && CommittedSync(d, i, amm, target, currentSqrtK, extraX, extraY, r.value.damm)
              && r.value.amm == rescaled
              && 0.0 <= r.value.damm.totalSupply && 0.0 <= r.value.damm.amms[i].totalSupply
              && HealthFactor(r.value.damm, sqrt).Some?
              && HealthFactor(r.value.damm, sqrt).value >= MinHealthFactor
  {
    var dSqrtK := currentSqrtK - d.amms[i].sqrtK;
    if d.totalSupply + dSqrtK < 0.0 then Failure(NegativeGlobalSupply)
    else if d.amms[i].totalSupply + dSqrtK < 0.0 then Failure(NegativePoolSupply)
    else
      var e := Commit(d, i, amm, target, currentSqrtK, extraX, extraY);
      match CheckHealth(HealthFactor(d, sqrt), HealthFactor(e, sqrt))
      case Some(err) => Failure(err)
      case None => Success(Synced(e, rescaled))
  }

  /**
   A sync past its index checks, for a pool with positive `vx*vy` and current
   root `currentSqrtK`: rescale the pool to the new root, check the curve
   (which, in exact arithmetic, always passes), then settle.
   */
  function Advance(d: Damm, i: nat, amm: Amm, target: nat, currentSqrtK: real,
                   extraX: real, extraY: real, sqrt: real -> real): (r: Result<Synced, SyncError>)
    requires IsSqrt(sqrt)
    requires i < |d.amms| && target < |d.syncPoints| && d.amms[i].previousSyncPointIdx < |d.syncPoints|
    requires 0.0 < K(amm)
    ensures r.Failure? ==> r.error in {NegativeGlobalSupply, NegativePoolSupply, HealthFactorTooLow, HealthFactorDropTooLarge}
    ensures var dSqrtK := currentSqrtK - d.amms[i].sqrtK;
            && (r == Failure(NegativeGlobalSupply) <==> d.totalSupply + dSqrtK < 0.0)
            && (r == Failure(NegativePoolSupply) <==>
                  0.0 <= d.totalSupply + dSqrtK && d.amms[i].totalSupply + dSqrtK < 0.0)
    ensures var dSqrtK := currentSqrtK - d.amms[i].sqrtK;
            r.Failure? && 0.0 <= d.totalSupply + dSqrtK && 0.0 <= d.amms[i].totalSupply + dSqrtK ==>
              Some(r.error) == CheckHealth(HealthFactor(d, sqrt),
                                           HealthFactor(Commit(d, i, amm, target, currentSqrtK, extraX, extraY), sqrt))
    ensures r.Success? <==> SettleAccepts(d, i, amm, target, currentSqrtK, extraX, extraY, sqrt)
    ensures r.Success? ==>
              && CommittedSync(d, i, amm, target, currentSqrtK, extraX, extraY, r.value.damm)
              && 0.0 <= r.value.damm.totalSupply && 0.0 <= r.value.damm.amms[i].totalSupply
              && HealthFactor(r.value.damm, sqrt).Some?
              && HealthFactor(r.value.damm, sqrt).value >= MinHealthFactor
              && RescaledTo(amm, r.value.amm, NewSqrtK(currentSqrtK, d.amms[i], d.syncPoints, target))
  {
    var newSqrtK := NewSqrtK(currentSqrtK, d.amms[i], d.syncPoints, target);
    var rescaled := Rescale(amm, newSqrtK, sqrt);
    if !(Abs(K(rescaled) - newSqrtK * newSqrtK) < CurveTolerance) then Failure(InvalidCurve)
    else Settle(d, i, amm, target, currentSqrtK, extraX, extraY, rescaled, sqrt)
  }

  /**
   Sync `amm` into the aggregator at ledger index `syncPointIdx`, adding
   `extraX`, `extraY` to the global balances. The checks run in this order:
   the pool is registered, the index is on the ledger and not below the pool's
   floor, the pool's previous index is on the ledger, the rescaled curve hits
   the new depth (which fails exactly when the pool's `vx*vy` is not positive,
   the only case in which the root or the ratio is not a finite real), both
   supplies stay non-negative, and the health check passes.
   */
  function Sync(d: Damm, amm: Amm, syncPointIdx: int, extraX: real, extraY: real,
                sqrt: real -> real): (r: Result<Synced, SyncError>)
    requires IsSqrt(sqrt)
    ensures r == Failure(NotFound) <==> forall j :: 0 <= j < |d.amms| ==> d.amms[j].name != amm.name
    ensures r != Failure(NotFound) ==>
              var i := FindAmm(d.amms, amm.name).value;
              r == SyncAt(d, i, amm, syncPointIdx, extraX, extraY, sqrt)
  {
    match FindAmm(d.amms, amm.name)
    case None => Failure(NotFound)
    case Some(i) => SyncAt(d, i, amm, syncPointIdx, extraX, extraY, sqrt)
  }

  /**
   A sync of the pool whose record is at position `i`. Each index check fails
   exactly when its index is off the ledger or below the floor; the curve
   check fails exactly when the pool's `vx*vy` is not positive. On success
   the state is committed with the pool's current root `sqrt(vx*vy)`, both
   supplies are non-negative, the health factor is at least the minimum, and
   the pool is rescaled to the recorded new root at its old price.
   */
  function SyncAt(d: Damm, i: nat, amm: Amm, syncPointIdx: int, extraX: real, extraY: real,
                  sqrt: real -> real): (r: Result<Synced, SyncError>)
    requires IsSqrt(sqrt)
    requires i < |d.amms|
    ensures var st := d.amms[i];
            r == Failure(SyncPointOutOfRange) <==>
              !(0 <= syncPointIdx < |d.syncPoints|)
              || (st.nextMinSyncPointIdx <= syncPointIdx && !(st.previousSyncPointIdx < |d.syncPoints|))
    ensures r == Failure(InvalidSyncPoint) <==>
              0 <= syncPointIdx < |d.syncPoints| && syncPointIdx < d.amms[i].nextMinSyncPointIdx
    ensures r == Failure(InvalidCurve) <==>
              && d.amms[i].nextMinSyncPointIdx <= syncPointIdx < |d.syncPoints|
              && d.amms[i].previousSyncPointIdx < |d.syncPoints|
              && K(amm) <= 0.0
    ensures r.Success? <==>
              && d.amms[i].nextMinSyncPointIdx <= syncPointIdx < |d.syncPoints|
              && d.amms[i].previousSyncPointIdx < |d.syncPoints|
              && 0.0 < K(amm)
              && SettleAccepts(d, i, amm, syncPointIdx, sqrt(K(amm)), extraX, extraY, sqrt)
    ensures var st := d.amms[i];
            var dSqrtK := sqrt(K(amm)) - st.sqrtK;
            && (r == Failure(NegativeGlobalSupply) <==>
                  && st.nextMinSyncPointIdx <= syncPointIdx < |d.syncPoints|
                  && st.previousSyncPointIdx < |d.syncPoints| && 0.0 < K(amm)
                  && d.totalSupply + dSqrtK < 0.0)
            && (r == Failure(NegativePoolSupply) <==>
                  && st.nextMinSyncPointIdx <= syncPointIdx < |d.syncPoints|
                  && st.previousSyncPointIdx < |d.syncPoints| && 0.0 < K(amm)
                  && 0.0 <= d.totalSupply + dSqrtK && st.totalSupply + dSqrtK < 0.0)
    ensures var st := d.amms[i];
            var dSqrtK := sqrt(K(amm)) - st.sqrtK;
            && r.Failure?
            && st.nextMinSyncPointIdx <= syncPointIdx < |d.syncPoints|
            && st.previousSyncPointIdx < |d.syncPoints| && 0.0 < K(amm)
            && 0.0 <= d.totalSupply + dSqrtK && 0.0 <= st.totalSupply + dSqrtK ==>
              Some(r.error) == CheckHealth(HealthFactor(d, sqrt),
                                           HealthFactor(Commit(d, i, amm, syncPointIdx, sqrt(K(amm)), extraX, extraY), sqrt))
    ensures r.Success? ==>
              && d.amms[i].nextMinSyncPointIdx <= syncPointIdx < |d.syncPoints|
              && d.amms[i].previousSyncPointIdx < |d.syncPoints|
              && 0.0 < K(amm)
              && CommittedSync(d, i, amm, syncPointIdx, sqrt(K(amm)), extraX, extraY, r.value.damm)
              && 0.0 <= r.value.damm.totalSupply && 0.0 <= r.value.damm.amms[i].totalSupply
              && HealthFactor(r.value.damm, sqrt).Some?
              && HealthFactor(r.value.damm, sqrt).value >= MinHealthFactor
              && RescaledTo(amm, r.value.amm, r.value.damm.amms[i].sqrtK)
  {
    var st := d.amms[i];
    if !(0 <= syncPointIdx < |d.syncPoints|) then Failure(SyncPointOutOfRange)
    else if syncPointIdx < st.nextMinSyncPointIdx then Failure(InvalidSyncPoint)
    else if !(st.previousSyncPointIdx < |d.syncPoints|) then Failure(SyncPointOutOfRange)
    else if K(amm) <= 0.0 then Failure(InvalidCurve)
    else Advance(d, i, amm, syncPointIdx, sqrt(K(amm)), extraX, extraY, sqrt)
  }
}

=== FILE: amm.dfy ===
/**
 A single constant-product pool. It keeps actual balances `x`, `y` (what the
 pool holds) and virtual balances `vx`, `vy` (what it prices against). Every
 operation is a pure function from the old pool to either a failure or the
 new pool together with the amounts moved.
 */
module AmmPool {
  import opened Wrappers
  import opened RealMath

  /** The assertions a pool operation can trip. */
  datatype PoolError =
    | RatioInvalid    // a join away from the current price
    | OutOfBounds     // a swap that would leave a negative actual balance
    | DivisionByZero  // a swap whose pricing denominator is zero
    | NotFinite       // an exit from a pool whose virtual balances give no finite real ratio

  /** How far a join's deposit ratio may stray from the pool's `vx/vy`. */
  const RatioTolerance: real := 0.01

  datatype Amm = Amm(name: string, x: real, y: real, vx: real, vy: real)

  /** What a successful join hands back: the new pool and the amount minted. */
  datatype Joined = Joined(pool: Amm, minted: real)

  /** What an exit hands back: the new pool and the amounts withdrawn. */
  datatype Withdrawal = Withdrawal(pool: Amm, amountX: real, amountY: real)

  /** What a successful swap hands back: the new pool, the amount paid in and the amount paid out. */
  datatype Swap = Swap(pool: Amm, amountIn: real, amountOut: real)

  /** A freshly constructed pool: every balance zero. */
  function NewAmm(name: string): (p: Amm)
    ensures p.name == name
    ensures p.x == 0.0 && p.y == 0.0 && p.vx == 0.0 && p.vy == 0.0
  {
    Amm(name, 0.0, 0.0, 0.0, 0.0)
  }

  /** Curve depth, the product of the virtual balances. */
  function K(p: Amm): real {
    p.vx * p.vy
  }

  /** Product of the actual balances. */
  function Kb(p: Amm): real {
    p.x * p.y
  }

  /** Price of `x` in units of `y`. */
  function Price(p: Amm): real
    requires p.vx != 0.0
  {
    p.vy / p.vx
  }

  /** Ratio of the actual balances. */
  function BalanceRatio(p: Amm): real
    requires p.x != 0.0
  {
    p.y / p.x
  }

  /**
   Constant-product output amount, no fee: what leaves the `reserveOut` side
   when `amountIn` enters the `reserveIn` side. The product of the two
   reserves is the same before and after, and a non-negative input against
   positive reserves never takes out the whole output reserve.
   */
  function GetAmountOutNoFee(amountIn: real, reserveIn: real, reserveOut: real): (out: real)
    requires reserveIn + amountIn != 0.0
    ensures (reserveIn + amountIn) * (reserveOut - out) == reserveIn * reserveOut
    ensures 0.0 < reserveIn && 0.0 <= amountIn && 0.0 <= reserveOut ==> 0.0 <= out <= reserveOut
    ensures 0.0 < reserveIn && 0.0 <= amountIn && 0.0 < reserveOut ==> out < reserveOut
  {
    var den := reserveIn + amountIn;
    var num := amountIn * reserveOut;
    var out := num / den;
    assert den * out == num;
    assert den * (reserveOut - out) == den * reserveOut - num;
    if 0.0 < reserveIn && 0.0 <= amountIn && 0.0 <= reserveOut then
      OutBelowReserve(amountIn, reserveIn, reserveOut, out);
      out
    else
      out
  }

  lemma OutBelowReserve(amountIn: real, reserveIn: real, reserveOut: real, out: real)
    requires 0.0 < reserveIn && 0.0 <= amountIn && 0.0 <= reserveOut
    requires (reserveIn + amountIn) * out == amountIn * reserveOut
    ensures 0.0 <= out <= reserveOut
    ensures 0.0 < reserveOut ==> out < reserveOut
  {
    var den := reserveIn + amountIn;
    var num := amountIn * reserveOut;
    var rest := reserveIn * reserveOut;
    assert 0.0 <= num && 0.0 <= rest;
    assert den * (reserveOut - out) == rest;
    PositiveFactor(den, out);
    PositiveFactor(den, reserveOut - out);
  }

  /**
   Output amount with the fee term switched off: the fee argument is taken but
   not applied, so this is exactly the no-fee formula.
   */
  function GetAmountOut(amountIn: real, reserveIn: real, reserveOut: real, fee: real): (out: real)
    requires reserveIn + amountIn != 0.0
    ensures out == GetAmountOutNoFee(amountIn, reserveIn, reserveOut)
  {
    var amountInWithFee := amountIn * 1.0;
    var numerator := amountInWithFee * reserveOut;
    var denominator := reserveIn * 1.0 + amountInWithFee;
    numerator / denominator
  }

  /**
   Buy `y` with `amountIn` of `x`, priced against the virtual balances. The
   input is added to `x` and `vx`, the output taken from `y` and `vy`, the
   curve depth is unchanged, and the swap is refused when either actual
   balance would go negative.
   */
  function BuyY(p: Amm, amountIn: real): (r: Result<Swap, PoolError>)
    ensures r == Failure(DivisionByZero) <==> p.vx + amountIn == 0.0
    ensures r.Success? ==>
              var q := r.value.pool;
              && r.value.amountIn == amountIn
              && q == Amm(p.name, p.x + amountIn, p.y - r.value.amountOut,
                          p.vx + amountIn, p.vy - r.value.amountOut)
              && K(q) == K(p)
              && 0.0 <= q.x && 0.0 <= q.y
    ensures r.Success? && 0.0 < p.vx && 0.0 <= amountIn && 0.0 <= p.vy ==>
              0.0 <= r.value.amountOut <= p.vy
    ensures p.vx + amountIn != 0.0 ==>
              (r == Failure(OutOfBounds) <==>
                 p.x + amountIn < 0.0 || p.y - GetAmountOutNoFee(amountIn, p.vx, p.vy) < 0.0)
  {
    if p.vx + amountIn == 0.0 then Failure(DivisionByZero)
    else
      var amountOut := GetAmountOut(amountIn, p.vx, p.vy, 0.0);
      var q := Amm(p.name, p.x + amountIn, p.y - amountOut, p.vx + amountIn, p.vy - amountOut);
      if 0.0 <= q.x && 0.0 <= q.y then Success(Swap(q, amountIn, amountOut))
      else Failure(OutOfBounds)
  }

  /**
   Buy `x` with `amountIn` of `y`: the mirror image of `BuyY`, always priced
   with the no-fee formula.
   */
  function BuyX(p: Amm, amountIn: real): (r: Result<Swap, PoolError>)
    ensures r == Failure(DivisionByZero) <==> p.vy + amountIn == 0.0
    ensures r.Success? ==>
              var q := r.value.pool;
              && r.value.amountIn == amountIn
              && q == Amm(p.name, p.x - r.value.amountOut, p.y + amountIn,
                          p.vx - r.value.amountOut, p.vy + amountIn)
              && K(q) == K(p)
              && 0.0 <= q.x && 0.0 <= q.y
    ensures r.Success? && 0.0 < p.vy && 0.0 <= amountIn && 0.0 <= p.vx ==>
              0.0 <= r.value.amountOut <= p.vx
    ensures p.vy + amountIn != 0.0 ==>
              (r == Failure(OutOfBounds) <==>
                 p.y + amountIn < 0.0 || p.x - GetAmountOutNoFee(amountIn, p.vy, p.vx) < 0.0)
  {
    if p.vy + amountIn == 0.0 then Failure(DivisionByZero)
    else
      var amountOut := GetAmountOutNoFee(amountIn, p.vy, p.vx);
      var q := Amm(p.name, p.x - amountOut, p.y + amountIn, p.vx - amountOut, p.vy + amountIn);
      if 0.0 <= q.x && 0.0 <= q.y then Success(Swap(q, amountIn, amountOut))
      else Failure(OutOfBounds)
  }

  /** A deposit is at the pool's price, within tolerance, or the pool has no depth yet. */
  predicate DepositAtPrice(p: Amm, amountX: real, amountY: real) {
    !(0.0 < p.vx && 0.0 < p.vy)
    || (amountY != 0.0 && Abs(p.vx / p.vy - amountX / amountY) < RatioTolerance)
  }

  /**
   Add liquidity. A pool that already has depth refuses a deposit whose ratio
   is 1% or more away from its own; otherwise the deposit is added to both the
   actual and the virtual balances and the geometric mean of the two amounts
   is minted.
   */
  function Join(p: Amm, amountX: real, amountY: real, sqrt: real -> real): (r: Result<Joined, PoolError>)
    requires IsSqrt(sqrt)
    requires 0.0 <= amountX * amountY
    ensures r.Failure? <==> !DepositAtPrice(p, amountX, amountY)
    ensures r.Failure? ==> r.error == RatioInvalid
    ensures r.Success? ==>
              && 0.0 <= r.value.minted
              && r.value.minted * r.value.minted == amountX * amountY
              && r.value.pool == Amm(p.name, p.x + amountX, p.y + amountY,
                                     p.vx + amountX, p.vy + amountY)
  {
    if 0.0 < p.vx && 0.0 < p.vy && !(amountY != 0.0 && Abs(p.vx / p.vy - amountX / amountY) < RatioTolerance)
    then Failure(RatioInvalid)
    else
      var mintAmount := sqrt(amountX * amountY);
      Success(Joined(Amm(p.name, p.x + amountX, p.y + amountY, p.vx + amountX, p.vy + amountY), mintAmount))
  }

  /**
   Remove liquidity worth `burnAmount`. The two amounts withdrawn multiply to
   `burnAmount` squared and stand in the pool's price ratio, so the price does
   not move; they come out of both the actual and the virtual balances. A pool
   with a zero virtual balance has no finite answer (a ratio divides by zero),
   and a pool whose virtual balances have opposite signs has none for a
   non-zero burn (the root is of a negative number); both are reported as
   `NotFinite`. A zero burn from a pool of opposite signs takes the root of
   zero and withdraws nothing.
   */
  function Exit(p: Amm, burnAmount: real, sqrt: real -> real): (r: Result<Withdrawal, PoolError>)
    requires IsSqrt(sqrt)
    ensures r.Failure? <==> p.vx * p.vy == 0.0 || (p.vx * p.vy < 0.0 && burnAmount != 0.0)
    ensures r.Failure? ==> r.error == NotFinite
    ensures r.Success? ==>
              var w := r.value;
              && 0.0 <= w.amountX && 0.0 <= w.amountY
              && w.amountX * w.amountY == burnAmount * burnAmount
              && w.amountY * p.vx == w.amountX * p.vy
              && w.pool == Amm(p.name, p.x - w.amountX, p.y - w.amountY,
                               p.vx - w.amountX, p.vy - w.amountY)
  {
    var vx, vy := p.vx, p.vy;
    if vx * vy == 0.0 then Failure(NotFinite)
    else if vx * vy < 0.0 then
      if burnAmount == 0.0 then Success(Withdrawal(p, 0.0, 0.0)) else Failure(NotFinite)
    else
      PositiveProduct(vx, vy);
      var qx := burnAmount * burnAmount * (vx / vy);
      var qy := burnAmount * burnAmount * (vy / vx);
      var amountX := sqrt(qx);
      var amountY := sqrt(qy);
      ScaledRoots(sqrt, burnAmount, vx, vy, qx, qy, amountX, amountY);
      Success(Withdrawal(Amm(p.name, p.x - amountX, p.y - amountY, p.vx - amountX, p.vy - amountY),
                         amountX, amountY))
  }

  lemma RatioFacts(vx: real, vy: real)
    requires 0.0 < vx * vy
    requires vx != 0.0 && vy != 0.0
    ensures 0.0 < vx / vy && 0.0 < vy / vx
    ensures (vx / vy) * (vy / vx) == 1.0
    ensures (vx / vy) * vy == vx && (vy / vx) * vx == vy
  {
    PositiveProduct(vx, vy);
    assert (vx / vy) * vy == vx;
    assert (vy / vx) * vx == vy;
  }

  /**
   The two roots `ax = sqrt(b*b*(vx/vy))` and `ay = sqrt(b*b*(vy/vx))`, taken
   both by an exit and by the aggregator's rescaling: non-negative, product
   `b*b`, ratio `vy/vx`. The arguments of `sqrt` are passed as `qx`, `qy`.
   */
  lemma ScaledRoots(sqrt: real -> real, b: real, vx: real, vy: real, qx: real, qy: real, ax: real, ay: real)
    requires IsSqrt(sqrt)
    requires 0.0 < vx * vy && vx != 0.0 && vy != 0.0
    requires qx == b * b * (vx / vy) && qy == b * b * (vy / vx)
    requires ax == sqrt(qx) && ay == sqrt(qy)
    ensures 0.0 <= ax && 0.0 <= ay
    ensures ax * ay == b * b
    ensures ay * vx == ax * vy
  {
    RatioFacts(vx, vy);
    SquareNonNegative(b);
    assert 0.0 <= qx && 0.0 <= qy;
    assert ax * ax == qx && ay * ay == qy && 0.0 <= ax && 0.0 <= ay;
    ExitProduct(b, vx, vy, qx, qy, ax, ay);
    ExitRatio(b, vx, vy, qx, qy, ax, ay);
  }

  /** Two non-negative roots of `b*b*u` and `b*b*v` with `u*v == 1` multiply to `b*b`. */
  lemma ExitProduct(b: real, vx: real, vy: real, qx: real, qy: real, ax: real, ay: real)
    requires vx != 0.0 && vy != 0.0 && (vx / vy) * (vy / vx) == 1.0
    requires qx == b * b * (vx / vy) && qy == b * b * (vy / vx)
    requires 0.0 <= ax && 0.0 <= ay && ax * ax == qx && ay * ay == qy
    ensures ax * ay == b * b
  {
    assert qx * qy == (b * b) * (b * b);
    assert (ax * ay) * (ax * ay) == (b * b) * (b * b);
    NonNegativeProduct(ax, ay);
    SquareNonNegative(b);
    SquaresEqual(ax * ay, b * b);
  }

  /** Two such roots stand in the ratio `vy/vx`. */
  lemma ExitRatio(b: real, vx: real, vy: real, qx: real, qy: real, ax: real, ay: real)
    requires 0.0 < vx * vy && vx != 0.0 && vy != 0.0
    requires (vx / vy) * vy == vx && (vy / vx) * vx == vy
    requires qx == b * b * (vx / vy) && qy == b * b * (vy / vx)
    requires 0.0 <= ax && 0.0 <= ay && ax * ax == qx && ay * ay == qy
    ensures ay * vx == ax * vy
  {
    var s, u, v := b * b, vx / vy, vy / vx;
    var l, m := ay * vx, ax * vy;
    assert l * l == (ay * ay) * (vx * vx);
    assert m * m == (ax * ax) * (vy * vy);
    assert (s * v) * (vx * vx) == s * (v * vx) * vx;
    assert (s * u) * (vy * vy) == s * (u * vy) * vy;
    PositiveProduct(vx, vy);
    SameSignSquaresEqual(l, m);
  }

  /**
   The withdrawal of an exit is the only pair of non-negative amounts whose
   product is the burn amount squared and which stands in the pool's ratio.
   */
  lemma ExitCharacterized(p: Amm, burnAmount: real, u: real, w: real, sqrt: real -> real)
    requires IsSqrt(sqrt)
    requires 0.0 < p.vx * p.vy
    requires 0.0 <= u && 0.0 <= w
    requires u * w == burnAmount * burnAmount
    requires w * p.vx == u * p.vy
    ensures Exit(p, burnAmount, sqrt).Success?
    ensures Exit(p, burnAmount, sqrt).value.amountX == u
    ensures Exit(p, burnAmount, sqrt).value.amountY == w
  {
    var r := Exit(p, burnAmount, sqrt).value;
    PositiveProduct(p.vx, p.vy);
    PairUnique(p.vx, p.vy, burnAmount * burnAmount, r.amountX, r.amountY, u, w);
  }

  /** Two non-negative pairs with the same product in the same ratio are equal. */
  lemma PairUnique(vx: real, vy: real, c: real, u1: real, w1: real, u2: real, w2: real)
    requires vx != 0.0 && vy != 0.0
    requires 0.0 <= u1 && 0.0 <= u2
    requires u1 * w1 == c && u2 * w2 == c
    requires w1 * vx == u1 * vy && w2 * vx == u2 * vy
    ensures u1 == u2 && w1 == w2
  {
    SquareAlongRatio(u1, w1, vx, vy, c);
    SquareAlongRatio(u2, w2, vx, vy, c);
    var s1, s2 := u1 * u1, u2 * u2;
    CancelNonZero(s1, s2, vy);
    SquaresEqual(u1, u2);
    CancelNonZero(w1, w2, vx);
  }

  lemma SquareAlongRatio(u: real, w: real, vx: real, vy: real, c: real)
    requires u * w == c && w * vx == u * vy
    ensures (u * u) * vy == c * vx
  {
    assert (u * u) * vy == u * (u * vy);
    assert u * (w * vx) == (u * w) * vx;
  }

  /**
   Joining at exactly the pool's price, or making the first join into an empty
   pool, and then exiting with the amount minted hands back exactly the
   deposit and restores the pool.
   */
  lemma JoinExitRoundTrip(p: Amm, amountX: real, amountY: real, sqrt: real -> real)
    requires IsSqrt(sqrt)
    requires 0.0 <= p.vx && 0.0 <= p.vy
    requires 0.0 < amountX && 0.0 < amountY
    requires amountX * p.vy == amountY * p.vx
    ensures Join(p, amountX, amountY, sqrt).Success?
    ensures var j := Join(p, amountX, amountY, sqrt).value;
            Exit(j.pool, j.minted, sqrt) == Success(Withdrawal(p, amountX, amountY))
  {
    if 0.0 < p.vx && 0.0 < p.vy {
      DivideCross(p.vx, p.vy, amountX, amountY);
    }
    assert DepositAtPrice(p, amountX, amountY);
    var j := Join(p, amountX, amountY, sqrt).value;
    var q := j.pool;
    DepositKeepsRatio(p.vx, p.vy, amountX, amountY);
    ExitCharacterized(q, j.minted, amountX, amountY, sqrt);
  }

  /** A deposit in the pool's ratio stands in the ratio of the grown pool. */
  lemma DepositKeepsRatio(vx: real, vy: real, ax: real, ay: real)
    requires 0.0 <= vx && 0.0 <= vy && 0.0 < ax && 0.0 < ay
    requires ax * vy == ay * vx
    ensures 0.0 < (vx + ax) * (vy + ay)
    ensures ay * (vx + ax) == ax * (vy + ay)
  {
    assert ay * (vx + ax) == ay * vx + ay * ax;
    assert ax * (vy + ay) == ax * vy + ax * ay;
    PositiveProduct2(vx + ax, vy + ay);
  }

  /**
   A join at the pool's price grows the root of the curve depth by exactly
   the amount minted. The same holds for the first join into an empty pool.
   */
  lemma JoinGrowsRoot(p: Amm, amountX: real, amountY: real, sqrt: real -> real)
    requires IsSqrt(sqrt)
    requires 0.0 <= p.vx && 0.0 <= p.vy
    requires 0.0 < amountX && 0.0 < amountY
    requires amountX * p.vy == amountY * p.vx
    ensures Join(p, amountX, amountY, sqrt).Success?
    ensures var j := Join(p, amountX, amountY, sqrt).value;
            sqrt(K(j.pool)) == sqrt(K(p)) + j.minted
  {
    PositiveProduct2(amountX, amountY);
    if 0.0 < p.vx && 0.0 < p.vy {
      DivideCross(p.vx, p.vy, amountX, amountY);
      assert p.vx / p.vy - amountX / amountY == 0.0;
    }
    assert DepositAtPrice(p, amountX, amountY);
    var j := Join(p, amountX, amountY, sqrt).value;
    RootGrowth(sqrt, p.vx, p.vy, amountX, amountY, j.minted, K(p), K(j.pool));
  }

  /** The arithmetic of `JoinGrowsRoot`, with the old and new depths passed as `k`, `kq`. */
  lemma RootGrowth(sqrt: real -> real, vx: real, vy: real, ax: real, ay: real, m: real, k: real, kq: real)
    requires IsSqrt(sqrt)
    requires 0.0 <= vx && 0.0 <= vy && 0.0 <= ax && 0.0 <= ay
    requires ax * vy == ay * vx
    requires 0.0 <= m && m * m == ax * ay
    requires k == vx * vy && kq == (vx + ax) * (vy + ay)
    ensures sqrt(kq) == sqrt(k) + m
  {
    NonNegativeProduct(vx, vy);
    var a, b := k, ax * ay;
    var r := sqrt(a);
    var t := ax * vy;
    NonNegativeProduct(ax, vy);
    RootsMultiply(vx, vy, ax, ay, a, b, t, r, m);
    SumOfRoots(vx, vy, ax, ay, a, b, t, r, m);
    SqrtUnique(sqrt, kq, r + m);
  }

  /**
   With `r*r == vx*vy` and `m*m == ax*ay`, both non-negative, and the deposit in
   the pool's ratio (`t == ax*vy == ay*vx`), the roots multiply to `t`.
   */
  lemma RootsMultiply(vx: real, vy: real, ax: real, ay: real, a: real, b: real, t: real, r: real, m: real)
    requires a == vx * vy && b == ax * ay
    requires t == ax * vy && t == ay * vx && 0.0 <= t
    requires 0.0 <= r && r * r == a && 0.0 <= m && m * m == b
    ensures r * m == t
  {
    assert (r * m) * (r * m) == (r * r) * (m * m);
    assert a * b == (ax * vy) * (ay * vx);
    NonNegativeProduct(r, m);
    SquaresEqual(r * m, t);
  }

  lemma SumOfRoots(vx: real, vy: real, ax: real, ay: real, a: real, b: real, t: real, r: real, m: real)
    requires a == vx * vy && b == ax * ay
    requires t == ax * vy && t == ay * vx
    requires 0.0 <= r && r * r == a && 0.0 <= m && m * m == b && r * m == t
    ensures 0.0 <= r + m
    ensures (r + m) * (r + m) == (vx + ax) * (vy + ay)
  {
    assert (r + m) * (r + m) == r * r + 2.0 * (r * m) + m * m;
    assert (vx + ax) * (vy + ay) == vx * vy + (ax * vy + ay * vx) + ax * ay;
  }

  /**
   An exit of at most the root of the curve depth (`burn * burn <= K`) shrinks
   that root by exactly the amount burned.
   */
  lemma ExitShrinksRoot(p: Amm, burnAmount: real, sqrt: real -> real)
    requires IsSqrt(sqrt)
    requires 0.0 < p.vx && 0.0 < p.vy
    requires 0.0 <= burnAmount
    requires burnAmount * burnAmount <= K(p)
    ensures Exit(p, burnAmount, sqrt).Success?
    ensures sqrt(K(Exit(p, burnAmount, sqrt).value.pool)) == sqrt(K(p)) - burnAmount
  {
    PositiveProduct2(p.vx, p.vy);
    var w := Exit(p, burnAmount, sqrt).value;
    RootShrink(sqrt, p.vx, p.vy, burnAmount, w.amountX, w.amountY, K(p), w.pool);
  }

  /** The arithmetic of `ExitShrinksRoot`, with the old depth passed as `k` and the new pool as `q`. */
  lemma RootShrink(sqrt: real -> real, vx: real, vy: real, b: real, u: real, v: real, k: real, q: Amm)
    requires IsSqrt(sqrt)
    requires 0.0 < vx && 0.0 < vy && 0.0 <= b
    requires k == vx * vy && b * b <= k
    requires 0.0 <= u && 0.0 <= v && u * v == b * b && v * vx == u * vy
    requires q.vx == vx - u && q.vy == vy - v
    ensures sqrt(K(q)) == sqrt(k) - b
  {
    var kq := K(q);
    var r := sqrt(k);
    var t := vx * v;
    SqrtAtLeast(sqrt, k, b);
    ExitCross(vx, vy, b, k, r, u, v, t);
    DifferenceOfRoots(vx, vy, b, k, r, u, v, t);
    SqrtUnique(sqrt, kq, r - b);
  }

  /**
   For exit amounts `u`, `v` (product `b*b`, ratio `v*vx == u*vy`) and the
   root `r` of `vx*vy`, the cross term `vx*v` is `b*r`.
   */
  lemma ExitCross(vx: real, vy: real, b: real, a: real, r: real, u: real, v: real, t: real)
    requires 0.0 < vx && 0.0 < vy && 0.0 <= b
    requires a == vx * vy && 0.0 <= r && r * r == a
    requires 0.0 <= u && 0.0 <= v && u * v == b * b && v * vx == u * vy
    requires t == vx * v
    ensures t == b * r && t == u * vy
  {
    assert t * t == (u * v) * (vx * vy) by {
      assert t * t == (vx * v) * (v * vx);
      assert (vx * v) * (v * vx) == (vx * v) * (u * vy);
    }
    assert (b * r) * (b * r) == (b * b) * (r * r);
    NonNegativeProduct(vx, v);
    NonNegativeProduct(b, r);
    SquaresEqual(t, b * r);
  }

  lemma DifferenceOfRoots(vx: real, vy: real, b: real, a: real, r: real, u: real, v: real, t: real)
    requires a == vx * vy && r * r == a
    requires u * v == b * b
    requires t == vx * v && t == u * vy && t == b * r
    ensures (r - b) * (r - b) == (vx - u) * (vy - v)
  {
    assert (r - b) * (r - b) == r * r - 2.0 * (b * r) + b * b;
    assert (vx - u) * (vy - v) == vx * vy - (vx * v + u * vy) + u * v;
  }

  /**
   Move actual balances from one pool to another. The virtual balances are
   left alone, and what one pool loses the other gains, so the sum of the two
   pools' actual balances is conserved.
   */
  function Transfer(from: Amm, to: Amm, amountX: real, amountY: real): (r: (Amm, Amm))
    ensures r.0.x + r.1.x == from.x + to.x && r.0.y + r.1.y == from.y + to.y
    ensures r.1.x - to.x == amountX && r.1.y - to.y == amountY
    ensures r.0 == from.(x := r.0.x, y := r.0.y) && r.1 == to.(x := r.1.x, y := r.1.y)
  {
    (from.(x := from.x - amountX, y := from.y - amountY),
     to.(x := to.x + amountX, y := to.y + amountY))
  }

  /** Move everything `from` holds into `to`: `from` is left empty and nothing is lost. */
  function TransferAllBack(from: Amm, to: Amm): (r: (Amm, Amm))
    ensures r.0.x == 0.0 && r.0.y == 0.0
    ensures r.1.x == from.x + to.x && r.1.y == from.y + to.y
    ensures r.0 == from.(x := 0.0, y := 0.0) && r.1 == to.(x := r.1.x, y := r.1.y)
  {
    Transfer(from, to, from.x, from.y)
  }

  /** A join at exactly the pool's price leaves the price where it was. */
  lemma JoinKeepsPrice(p: Amm, amountX: real, amountY: real, sqrt: real -> real)
    requires IsSqrt(sqrt)
    requires 0.0 < p.vx && 0.0 < p.vy
    requires 0.0 < amountX && 0.0 < amountY
    requires amountX * p.vy == amountY * p.vx
    ensures Join(p, amountX, amountY, sqrt).Success?
    ensures Price(Join(p, amountX, amountY, sqrt).value.pool) == Price(p)
  {
    DivideCross(p.vx, p.vy, amountX, amountY);
    assert DepositAtPrice(p, amountX, amountY);
    var q := Join(p, amountX, amountY, sqrt).value.pool;
    assert (q.vy) * p.vx == q.vx * p.vy by {
      assert (p.vy + amountY) * p.vx == p.vy * p.vx + amountY * p.vx;
      assert (p.vx + amountX) * p.vy == p.vx * p.vy + amountX * p.vy;
    }
    DivideCross(q.vy, q.vx, p.vy, p.vx);
  }

  /** An exit that leaves some `vx` in a pool with depth leaves the price where it was. */
  lemma ExitKeepsPrice(p: Amm, burnAmount: real, sqrt: real -> real)
    requires IsSqrt(sqrt)
    requires 0.0 < p.vx && 0.0 < p.vy
    ensures Exit(p, burnAmount, sqrt).Success?
    ensures var q := Exit(p, burnAmount, sqrt).value.pool;
            q.vx != 0.0 ==> Price(q) == Price(p)
  {
    PositiveProduct2(p.vx, p.vy);
    var w := Exit(p, burnAmount, sqrt).value;
    if w.pool.vx != 0.0 {
      WithdrawKeepsRatio(p.vx, p.vy, w.amountX, w.amountY, w.pool);
      DivideCross(w.pool.vy, w.pool.vx, p.vy, p.vx);
    }
  }

  lemma WithdrawKeepsRatio(vx: real, vy: real, u: real, v: real, q: Amm)
    requires v * vx == u * vy
    requires q.vx == vx - u && q.vy == vy - v
    ensures q.vy * vx == q.vx * vy
  {
    assert (vy - v) * vx == vy * vx - v * vx;
    assert (vx - u) * vy == vx * vy - u * vy;
  }
}

=== FILE: invariants.dfy ===
/**
 The bookkeeping invariant of the aggregator and the lemmas that show every
 operation keeps it. The ledger starts at the genesis entry and only grows;
 each entry's timestamp is its position; the global supply equals the last
 ledger root and the sum of the per-pool supplies, and none of them is
 negative; every record's indices point into the ledger.
 */
module Invariants {
  import opened Wrappers
  import opened RealMath
  import opened AmmPool
  import opened Aggregator

  /** Sum of the per-pool supplies, taken from the back. */
  function SupplySum(amms: seq<AmmState>): real {
    if |amms| == 0 then 0.0
    else SupplySum(amms[..|amms| - 1]) + amms[|amms| - 1].totalSupply
  }

  /** The indices a record keeps point into a ledger of `n` entries, in order. */
  ghost predicate RecordIndicesOk(a: AmmState, n: nat) {
    a.previousSyncPointIdx <= a.nextMinSyncPointIdx < n
  }

  ghost predicate Valid(d: Damm) {
    && 0 < |d.syncPoints|
    && d.syncPoints[0] == SyncPoint(0, 0.0)
    && (forall k :: 0 <= k < |d.syncPoints| ==> d.syncPoints[k].timestamp == k)
    && d.totalSupply == d.syncPoints[|d.syncPoints| - 1].sqrtK
    && d.totalSupply == SupplySum(d.amms)
    && 0.0 <= d.totalSupply
    && (forall j :: 0 <= j < |d.amms| ==> 0.0 <= d.amms[j].totalSupply)
    && (forall j :: 0 <= j < |d.amms| ==> RecordIndicesOk(d.amms[j], |d.syncPoints|))
  }

  lemma SupplySumAppend(amms: seq<AmmState>, a: AmmState)
    ensures SupplySum(amms + [a]) == SupplySum(amms) + a.totalSupply
  {
    assert (amms + [a])[..|amms|] == amms;
  }

  /**
   Replacing one record changes the sum by the difference of the two
   records' supplies.
   */
  lemma {:induction false} SupplySumReplace(s: seq<AmmState>, t: seq<AmmState>, i: nat)
    requires |s| == |t| && i < |s|
    requires forall j :: 0 <= j < |s| && j != i ==> s[j] == t[j]
    ensures SupplySum(t) == SupplySum(s) - s[i].totalSupply + t[i].totalSupply
    decreases |s|
  {
    var m := |s| - 1;
    if i == m {
      assert s[..m] == t[..m];
    } else {
      SupplySumReplace(s[..m], t[..m], i);
    }
  }

  /** A fresh aggregator satisfies the invariant. */
  lemma NewDammValid(name: string)
    ensures Valid(NewDamm(name))
  {
  }

  /** Registering a pool keeps the invariant. */
  lemma AddAmmValid(d: Damm, amm: Amm)
    requires Valid(d)
    ensures Valid(AddAmm(d, amm))
  {
    SupplySumAppend(d.amms, InitialState(amm));
  }

  /**
   Committing a sync keeps the invariant when both supplies it leaves are
   non-negative: the supply, the last ledger root and the sum of the per-pool
   supplies all move by the same amount, the appended entry's timestamp is its
   position, and the synced record's indices point into the grown ledger.
   */
  lemma CommitValid(d: Damm, i: nat, amm: Amm, target: nat, currentSqrtK: real,
                    extraX: real, extraY: real, e: Damm)
    requires Valid(d)
    requires i < |d.amms| && target < |d.syncPoints| && d.amms[i].previousSyncPointIdx < |d.syncPoints|
    requires d.amms[i].nextMinSyncPointIdx <= target
    requires CommittedSync(d, i, amm, target, currentSqrtK, extraX, extraY, e)
    requires 0.0 <= e.totalSupply && 0.0 <= e.amms[i].totalSupply
    ensures Valid(e)
  {
    var n := |d.syncPoints|;
    SupplySumReplace(d.amms, e.amms, i);
    assert e.syncPoints[0] == d.syncPoints[0] by {
      assert e.syncPoints[..n][0] == d.syncPoints[0];
    }
    forall k | 0 <= k < |e.syncPoints|
      ensures e.syncPoints[k].timestamp == k
    {
      if k < n {
        assert e.syncPoints[k] == e.syncPoints[..n][k];
      }
    }
    forall j | 0 <= j < |e.amms|
      ensures RecordIndicesOk(e.amms[j], |e.syncPoints|)
    {
      if j != i {
        assert RecordIndicesOk(d.amms[j], n);
      }
    }
  }

  /** A successful sync keeps the invariant. */
  lemma SyncValid(d: Damm, amm: Amm, syncPointIdx: int, extraX: real, extraY: real, sqrt: real -> real)
    requires IsSqrt(sqrt)
    requires Valid(d)
    ensures var r := Sync(d, amm, syncPointIdx, extraX, extraY, sqrt);
            r.Success? ==> Valid(r.value.damm)
  {
    if Sync(d, amm, syncPointIdx, extraX, extraY, sqrt).Failure? {
      return;
    }
    var i := FindAmm(d.amms, amm.name).value;
    var e := Sync(d, amm, syncPointIdx, extraX, extraY, sqrt).value.damm;
    CommitValid(d, i, amm, syncPointIdx, sqrt(K(amm)), extraX, extraY, e);
  }

  /** Two registries with the same names in the same order give the same lookups. */
  lemma {:induction false} FindAmmSameNames(s: seq<AmmState>, t: seq<AmmState>, name: string)
    requires |s| == |t|
    requires forall j :: 0 <= j < |s| ==> s[j].name == t[j].name
    ensures FindAmm(s, name) == FindAmm(t, name)
    decreases |s|
  {
    if |s| > 0 && s[0].name != name {
      FindAmmSameNames(s[1..], t[1..], name);
    }
  }

  /**
   Once a pool has synced, the ledger indices below its new floor are closed
   to it: a later sync of the same pool at any index that was already on the
   ledger before the first sync fails as an invalid sync point.
   */
  lemma StaleIndexRefused(d: Damm, amm: Amm, syncPointIdx: int, extraX: real, extraY: real,
                          later: Amm, staleIdx: int, laterX: real, laterY: real, sqrt: real -> real)
    requires IsSqrt(sqrt)
    requires later.name == amm.name
    requires 0 <= staleIdx < |d.syncPoints|
    ensures var r := Sync(d, amm, syncPointIdx, extraX, extraY, sqrt);
            r.Success? ==> Sync(r.value.damm, later, staleIdx, laterX, laterY, sqrt) == Failure(InvalidSyncPoint)
  {
    if Sync(d, amm, syncPointIdx, extraX, extraY, sqrt).Failure? {
      return;
    }
    var i := FindAmm(d.amms, amm.name).value;
    var e := Sync(d, amm, syncPointIdx, extraX, extraY, sqrt).value.damm;
    assert CommittedSync(d, i, amm, syncPointIdx, sqrt(K(amm)), extraX, extraY, e);
    FindAmmSameNames(d.amms, e.amms, amm.name);
    assert e.amms[i].nextMinSyncPointIdx == |d.syncPoints|;
  }

  /**
   The floor of every pool only rises: after a successful sync no record's
   floor is lower than before, and the synced pool's floor is the position of
   the entry just appended.
   */
  lemma SyncFloorsRise(d: Damm, amm: Amm, syncPointIdx: int, extraX: real, extraY: real, sqrt: real -> real)
    requires IsSqrt(sqrt)
    requires Valid(d)
    ensures var r := Sync(d, amm, syncPointIdx, extraX, extraY, sqrt);
            r.Success? ==>
            var e := r.value.damm;
            && |e.amms| == |d.amms|
            && (forall j :: 0 <= j < |d.amms| ==>
                  d.amms[j].nextMinSyncPointIdx <= e.amms[j].nextMinSyncPointIdx)
            && e.amms[FindAmm(d.amms, amm.name).value].nextMinSyncPointIdx == |e.syncPoints| - 1
  {
    if Sync(d, amm, syncPointIdx, extraX, extraY, sqrt).Failure? {
      return;
    }
    var i := FindAmm(d.amms, amm.name).value;
    var e := Sync(d, amm, syncPointIdx, extraX, extraY, sqrt).value.damm;
    assert CommittedSync(d, i, amm, syncPointIdx, sqrt(K(amm)), extraX, extraY, e);
    assert RecordIndicesOk(d.amms[i], |d.syncPoints|);
  }

  /**
   Lookup after registration: a name already registered still finds its first
   record; a new name finds the record just appended; any other name is still
   missing.
   */
  lemma AddAmmFind(d: Damm, amm: Amm, name: string)
    ensures FindAmm(AddAmm(d, amm).amms, name) ==
              if FindAmm(d.amms, name).Some? then FindAmm(d.amms, name)
              else if name == amm.name then Some(|d.amms|)
              else None
  {
    FindAmmAppend(d.amms, InitialState(amm), name);
  }

  lemma {:induction false} FindAmmAppend(s: seq<AmmState>, a: AmmState, name: string)
    ensures FindAmm(s + [a], name) ==
              if FindAmm(s, name).Some? then FindAmm(s, name)
              else if name == a.name then Some(|s|)
              else None
    decreases |s|
  {
    if |s| > 0 {
      assert (s + [a])[1..] == s[1..] + [a];
      FindAmmAppend(s[1..], a, name);
    }
  }
}

=== FILE: realmath.dfy ===
/**
 Exact real arithmetic used by the pool and the aggregator in place of
 floating point. The square root the source takes with `Math.sqrt` is passed
 around as a function value that is required to be the non-negative square
 root on every non-negative input; the lemmas below show that any such
 function gives the same answers, so nothing depends on which one is passed.
 */
module RealMath {

  function Abs(r: real): (a: real)
    ensures 0.0 <= a
    ensures a == r || a == -r
  {
    if r < 0.0 then -r else r
  }

  /** `sqrt` is the non-negative square root on the non-negative reals. */
  ghost predicate IsSqrt(sqrt: real -> real) {
    forall a :: 0.0 <= a ==> 0.0 <= sqrt(a) && sqrt(a) * sqrt(a) == a
  }

  lemma ProductZero(p: real, q: real)
    requires p * q == 0.0
    ensures p == 0.0 || q == 0.0
  {
  }

  lemma PositiveFactor(d: real, z: real)
    requires 0.0 < d
    ensures 0.0 <= d * z ==> 0.0 <= z
    ensures 0.0 < d * z ==> 0.0 < z
  {
  }

  lemma SquareNonNegative(b: real)
    ensures 0.0 <= b * b
  {
  }

  lemma NonNegativeProduct(p: real, q: real)
    requires 0.0 <= p && 0.0 <= q
    ensures 0.0 <= p * q
  {
  }

  lemma PositiveProduct2(p: real, q: real)
    requires 0.0 < p && 0.0 < q
    ensures 0.0 < p * q
  {
  }

  /** A positive product has factors of one sign, neither of them zero. */
  lemma PositiveProduct(p: real, q: real)
    requires 0.0 < p * q
    ensures (0.0 < p && 0.0 < q) || (p < 0.0 && q < 0.0)
  {
  }

  /** A common non-zero factor cancels. */
  lemma CancelNonZero(a: real, b: real, s: real)
    requires s != 0.0 && a * s == b * s
    ensures a == b
  {
    assert (a - b) * s == a * s - b * s;
    ProductZero(a - b, s);
  }

  /** Cross-multiplication turns an equation of products into one of quotients. */
  lemma DivideCross(p: real, q: real, s: real, t: real)
    requires q != 0.0 && t != 0.0
    requires p * t == q * s
    ensures p / q == s / t
  {
    var u, w := p / q, s / t;
    assert u * q == p && w * t == s;
    assert (u * q) * t == (w * t) * q;
    assert (u - w) * (q * t) == 0.0;
    ProductZero(u - w, q * t);
  }

  /** Two non-negative reals with the same square are equal. */
  lemma SquaresEqual(r: real, s: real)
    requires 0.0 <= r && 0.0 <= s
    requires r * r == s * s
    ensures r == s
  {
    assert (r - s) * (r + s) == r * r - s * s;
    ProductZero(r - s, r + s);
  }

  /** Two reals of the same sign with the same square are equal. */
  lemma SameSignSquaresEqual(r: real, s: real)
    requires (0.0 <= r && 0.0 <= s) || (r <= 0.0 && s <= 0.0)
    requires r * r == s * s
    ensures r == s
  {
    if r <= 0.0 && s <= 0.0 {
      assert (-r) * (-r) == r * r;
      assert (-s) * (-s) == s * s;
      SquaresEqual(-r, -s);
    } else {
      SquaresEqual(r, s);
    }
  }

  /** The root of `a` is the only non-negative `r` with `r * r == a`. */
  lemma SqrtUnique(sqrt: real -> real, a: real, r: real)
    requires IsSqrt(sqrt)
    requires 0.0 <= r && r * r == a
    ensures sqrt(a) == r
  {
    assert 0.0 <= a;
    SquaresEqual(sqrt(a), r);
  }

  /** Comparing a root against a non-negative bound is comparing squares. */
  lemma SqrtAtLeast(sqrt: real -> real, a: real, c: real)
    requires IsSqrt(sqrt)
    requires 0.0 <= a && 0.0 <= c
    ensures sqrt(a) >= c <==> a >= c * c
  {
    var r := sqrt(a);
    var cc := c * c;
    assert 0.0 <= r && r * r == a;
    if r >= c {
      assert a >= c * r >= cc;
    } else {
      assert a <= r * c;
      assert r * c < cc;
    }
  }
}

=== FILE: runs.dfy ===
/**
 Sequences of aggregator operations. A run registers pools and syncs them in
 the order given and stops at the first sync that fails, as the source's
 driver does when an assertion throws. Over any run the invariant holds
 throughout and the ledger only grows.
 */
module Runs {
  import opened Wrappers
  import opened RealMath
  import opened AmmPool
  import opened Aggregator
  import opened Invariants

  /** One aggregator operation: register a pool, or sync a pool at a ledger index. */
  datatype Op =
    | Register(amm: Amm)
    | SyncPool(amm: Amm, syncPointIdx: int, extraX: real, extraY: real)

  function Apply(d: Damm, op: Op, sqrt: real -> real): (r: Result<Damm, SyncError>)
    requires IsSqrt(sqrt)
    ensures op.Register? ==> r == Success(AddAmm(d, op.amm))
    ensures op.SyncPool? ==>
              var s := Sync(d, op.amm, op.syncPointIdx, op.extraX, op.extraY, sqrt);
              && r.Success? == s.Success?
              && (r.Success? ==> r.value == s.value.damm)
              && (r.Failure? ==> r.error == s.error)
  {
    match op
    case Register(amm) => Success(AddAmm(d, amm))
    case SyncPool(amm, idx, ex, ey) =>
      match Sync(d, amm, idx, ex, ey, sqrt)
      case Success(s) => Success(s.damm)
      case Failure(err) => Failure(err)
  }

  function Run(d: Damm, ops: seq<Op>, sqrt: real -> real): (r: Result<Damm, SyncError>)
    requires IsSqrt(sqrt)
    decreases |ops|
  {
    if |ops| == 0 then Success(d)
    else
      match Apply(d, ops[0], sqrt)
      case Failure(err) => Failure(err)
      case Success(e) => Run(e, ops[1..], sqrt)
  }

  /** One operation keeps the invariant and only appends to the ledger. */
  lemma ApplyKeeps(d: Damm, op: Op, sqrt: real -> real)
    requires IsSqrt(sqrt)
    requires Valid(d)
    ensures var r := Apply(d, op, sqrt);
            r.Success? ==>
            && Valid(r.value)
            && |d.syncPoints| <= |r.value.syncPoints|
            && r.value.syncPoints[..|d.syncPoints|] == d.syncPoints
  {
    match op
    case Register(amm) =>
      AddAmmValid(d, amm);
    case SyncPool(amm, idx, ex, ey) =>
      SyncValid(d, amm, idx, ex, ey, sqrt);
  }

  /**
   A run from a valid aggregator ends valid, and the ledger it started with
   is a prefix of the ledger it ends with.
   */
  lemma {:induction false} RunKeeps(d: Damm, ops: seq<Op>, sqrt: real -> real)
    requires IsSqrt(sqrt)
    requires Valid(d)
    ensures var r := Run(d, ops, sqrt);
            r.Success? ==>
            && Valid(r.value)
            && |d.syncPoints| <= |r.value.syncPoints|
            && r.value.syncPoints[..|d.syncPoints|] == d.syncPoints
    decreases |ops|
  {
    if |ops| > 0 && Apply(d, ops[0], sqrt).Success? && Run(d, ops, sqrt).Success? {
      var e := Apply(d, ops[0], sqrt).value;
      ApplyKeeps(d, ops[0], sqrt);
      RunKeeps(e, ops[1..], sqrt);
      var f := Run(e, ops[1..], sqrt).value;
      assert f.syncPoints[..|d.syncPoints|] == f.syncPoints[..|e.syncPoints|][..|d.syncPoints|];
    }
  }

  /** Every run from a fresh aggregator that succeeds ends in a valid state. */
  lemma FreshRunValid(name: string, ops: seq<Op>, sqrt: real -> real)
    requires IsSqrt(sqrt)
    requires Run(NewDamm(name), ops, sqrt).Success?
    ensures Valid(Run(NewDamm(name), ops, sqrt).value)
  {
    NewDammValid(name);
    RunKeeps(NewDamm(name), ops, sqrt);
  }

  /**
   One operation keeps a registered pool's record at the position its name
   finds, does not lower that record's floor index, and does not shrink the
   ledger.
   */
  lemma ApplyFloor(d: Damm, op: Op, name: string, i: nat, sqrt: real -> real)
    requires IsSqrt(sqrt)
    requires FindAmm(d.amms, name) == Some(i)
    ensures var r := Apply(d, op, sqrt);
            r.Success? ==>
            && FindAmm(r.value.amms, name) == Some(i)
            && d.amms[i].nextMinSyncPointIdx <= r.value.amms[i].nextMinSyncPointIdx
            && |d.syncPoints| <= |r.value.syncPoints|
  {
    match op
    case Register(amm) =>
      AddAmmFind(d, amm, name);
    case SyncPool(amm, idx, ex, ey) =>
      if Sync(d, amm, idx, ex, ey, sqrt).Failure? {
        return;
      }
      var j := FindAmm(d.amms, amm.name).value;
      var e := Sync(d, amm, idx, ex, ey, sqrt).value.damm;
      assert CommittedSync(d, j, amm, idx, sqrt(K(amm)), ex, ey, e);
      FindAmmSameNames(d.amms, e.amms, name);
  }

  /** Over a whole run, the same: the record stays put, its floor only rises, the ledger only grows. */
  lemma {:induction false} RunFloor(d: Damm, ops: seq<Op>, name: string, i: nat, sqrt: real -> real)
    requires IsSqrt(sqrt)
    requires FindAmm(d.amms, name) == Some(i)
    ensures var r := Run(d, ops, sqrt);
            r.Success? ==>
            && FindAmm(r.value.amms, name) == Some(i)
            && d.amms[i].nextMinSyncPointIdx <= r.value.amms[i].nextMinSyncPointIdx
            && |d.syncPoints| <= |r.value.syncPoints|
    decreases |ops|
  {
    if |ops| > 0 && Apply(d, ops[0], sqrt).Success? {
      ApplyFloor(d, ops[0], name, i, sqrt);
      RunFloor(Apply(d, ops[0], sqrt).value, ops[1..], name, i, sqrt);
    }
  }

  /**
   Once a pool has synced, no later run of registrations and syncs of any
   pools reopens the ledger indices that were on the ledger before that sync:
   a sync of the same name at such an index fails as an invalid sync point.
   */
  lemma StaleIndexRefusedAfterRun(d: Damm, amm: Amm, syncPointIdx: int, extraX: real, extraY: real,
                                  ops: seq<Op>, later: Amm, staleIdx: int, laterX: real, laterY: real,
                                  sqrt: real -> real)
    requires IsSqrt(sqrt)
    requires later.name == amm.name
    requires 0 <= staleIdx < |d.syncPoints|
    ensures var r := Sync(d, amm, syncPointIdx, extraX, extraY, sqrt);
            r.Success? && Run(r.value.damm, ops, sqrt).Success? ==>
              Sync(Run(r.value.damm, ops, sqrt).value, later, staleIdx, laterX, laterY, sqrt)
                == Failure(InvalidSyncPoint)
  {
    var r := Sync(d, amm, syncPointIdx, extraX, extraY, sqrt);
    if r.Failure? || Run(r.value.damm, ops, sqrt).Failure? {
      return;
    }
    var i := FindAmm(d.amms, amm.name).value;
    var e := r.value.damm;
    assert CommittedSync(d, i, amm, syncPointIdx, sqrt(K(amm)), extraX, extraY, e);
    FindAmmSameNames(d.amms, e.amms, amm.name);
    assert e.amms[i].nextMinSyncPointIdx == |d.syncPoints|;
    RunFloor(e, ops, amm.name, i, sqrt);
  }

  /**
   The opening of the demo script at the end of simulator.ts, in exact arithmetic. A fresh pool's first
   deposit of 100 of each token mints 100 and sets both balance pairs to 100.
   */
  lemma FirstJoinScenario(sqrt: real -> real)
    requires IsSqrt(sqrt)
    ensures Join(NewAmm("AMM1"), 100.0, 100.0, sqrt) == Success(Joined(Amm("AMM1", 100.0, 100.0, 100.0, 100.0), 100.0))
  {
    var b := 100.0 * 100.0;
    assert b == 10000.0;
    SqrtUnique(sqrt, b, 100.0);
  }

  /**
   The demo continued: with that pool registered in a fresh aggregator, its
   first sync at the genesis index succeeds, appends a ledger entry at root
   100, raises the global supply to 100, leaves the pool's curve where it was,
   and gives a health factor of exactly 1.
   */
  lemma FirstSyncScenario(d: Damm, q: Amm, sqrt: real -> real)
    requires IsSqrt(sqrt)
    requires d == AddAmm(NewDamm("DAMM"), NewAmm("AMM1"))
    requires q == Amm("AMM1", 100.0, 100.0, 100.0, 100.0)
    ensures var s := Sync(d, q, 0, 0.0, 0.0, sqrt);
            && s.Success?
            && s.value.damm.totalSupply == 100.0
            && s.value.damm.syncPoints == [SyncPoint(0, 0.0), SyncPoint(1, 100.0)]
            && s.value.amm == q
            && HealthFactor(s.value.damm, sqrt) == Some(1.0)
  {
    ScenarioSettles(d, q, sqrt);
    assert FindAmm(d.amms, "AMM1") == Some(0);
    var s := SyncAt(d, 0, q, 0, 0.0, 0.0, sqrt);
    assert s.Success?;
    var e := Commit(d, 0, q, 0, 100.0, 0.0, 0.0);
    assert s.value.damm == e by {
      assert CommittedSync(d, 0, q, 0, 100.0, 0.0, 0.0, s.value.damm);
    }
    RescaleFixed(q, s.value.amm, 100.0);
  }

  /** The health check and supply checks of the scenario's sync pass. */
  lemma ScenarioSettles(d: Damm, q: Amm, sqrt: real -> real)
    requires IsSqrt(sqrt)
    requires d == AddAmm(NewDamm("DAMM"), NewAmm("AMM1"))
    requires q == Amm("AMM1", 100.0, 100.0, 100.0, 100.0)
    ensures sqrt(K(q)) == 100.0
    ensures SettleAccepts(d, 0, q, 0, 100.0, 0.0, 0.0, sqrt)
    ensures HealthFactor(Commit(d, 0, q, 0, 100.0, 0.0, 0.0), sqrt) == Some(1.0)
  {
    SqrtUnique(sqrt, 10000.0, 100.0);
    assert K(q) == 10000.0;
    var e := Commit(d, 0, q, 0, 100.0, 0.0, 0.0);
    assert e.x == 100.0 && e.y == 100.0 && e.totalSupply == 100.0;
    assert HealthFactor(e, sqrt) == Some(1.0) by {
      assert e.x * e.y == 10000.0;
      var h := HealthFactor(e, sqrt).value;
      assert h * 100.0 == 100.0;
    }
    assert HealthFactor(d, sqrt) == None;
  }

  /** A pool rescaled to the depth it already has at an even price is unchanged. */
  lemma RescaleFixed(amm: Amm, q: Amm, c: real)
    requires 0.0 < c && amm.vx == c && amm.vy == c
    requires RescaledTo(amm, q, c)
    ensures q == amm
  {
    CancelNonZero(q.vy, q.vx, c);
    SquaresEqual(q.vx, c);
  }
}

=== FILE: wrappers.dfy ===
/** Option and result types shared by the pool and the aggregator. */
module Wrappers {

  datatype Option<+T> = None | Some(value: T)

  /** Either the new state of a successful operation or the reason it failed. */
  datatype Result<+T, +E> = Success(value: T) | Failure(error: E)
}
